=== FILE: README.md ===
# c-vector: a Dafny model of the dynamic array and the arena

This project models the two memory-management primitives of the c-vector
library and proves properties of the model:

- the **type-erased dynamic array** of `src/vector.c` — a vector of
  fixed-stride elements with a capacity that grows by doubling, positional
  insert/remove with overlap-safe tail moves, get/set/swap, an exchange sort
  over raw bytes, and a forward iteration cursor;
- the **arena** of `src/arena.c` — a singly linked list of allocation nodes,
  newest first, with lookup-by-identity reallocation and all-at-once release.

Modules:

| file | module | what it holds |
|---|---|---|
| options.dfy | `Options` | `Option`, standing for a nullable pointer |
| memcmp.dfy | `ByteCompare` | `memcmp` over unsigned bytes, with antisymmetry and transitivity |
| vector.dfy | `Vectors` | `Vec(stride, elems, cap)`, the growth rule `v_resize`, every public `vec_*` operation |
| vector_sort.dfy | `VectorSort` | `vec_sort` as a method with nested loops |
| vector_iter.dfy | `VectorIter` | `vec_iter` with an explicit cursor |
| vector_init.dfy | `VectorInit` | `vec_init` and `vec_from`, as written and as intended |
| vector_laws.dfy | `VectorLaws` | round trips and other multi-operation laws |
| arena.dfy | `Arenas` | blocks with handles, `arena_init/alloc/realloc/free` |
| arena_laws.dfy | `ArenaLaws` | freshness, in-place resize, release laws |

Modelling choices:

- A vector element is a byte string (`seq<bv8>`) of `stride` bytes, so the
  byte-wise comparison of `vec_sort` is modelled exactly. Only the valid
  elements are modelled, not the raw buffer or the bytes past `len`.
  `Vectors.Valid` is the invariant `len <= cap` plus every element being
  `stride` bytes long.
- Out-parameters the C code copies into (`elem`, `elems`, `tmp`) are returned
  values. A NULL optional out-parameter means the caller discards that value.
- `vec_len` is `Vectors.Len`, and every other contract is stated through it.
- `vec_iter`'s single static cursor is passed in and returned explicitly
  (`VectorIter.Iter`). Threading the same cursor value through calls on
  different vectors reproduces the shared-state behaviour
  (`VectorIter.SharedCursorSkips`).
- The `vec_remove_n` guard `pos + n - 1 < len` is stated on naturals as
  `n >= 1 && pos + n <= len` (`Vectors.RemovesSpan`).
  `VectorLaws.WrappedGuardAgrees` shows this matches the 64-bit wrapped guard.
  When no sum overflows, the only extra inputs the wrapped guard lets through
  are zero-length requests, and those have no effect.
- An arena node is a `Block(id, data)`. The handle `id` stands for the payload
  pointer's identity. `next` is the first handle never issued, so handles are
  fresh. A payload byte is an `Octet`: `Indeterminate` (fresh `malloc` or
  `realloc` memory) or `Known(b)`.
- `memcmp` is modelled by its sign only (`ByteCompare.MemCmp`), as in
  section 7.24.4.1 of ISO C11. `realloc` preserves the first `min(old, new)`
  bytes and leaves the rest indeterminate, as in section 7.22.3.5 of ISO C11.

Where the code and its documentation disagree, the model follows the code:

- `vec_data` returns NULL when `len == 0`, not when the buffer is
  unallocated.
- `arena_realloc` returns the payload of the node after the resized one (see
  Findings).
- `vec_init` and `vec_from` do not build what their comments describe (see
  Findings).

## Model

| member | source | states |
|---|---|---|
| `Vectors.Grow` | src/vector.c:55-66 | growing past `cap` gives `max(n, 2*cap, 2)`: `max(n,2)` when unallocated, `2*cap` for `cap < n <= 2*cap`, exactly `n` beyond; with `0 < n <= cap` it gives exactly `n` |
| `Vectors.New` | src/vector.c:73-78 | an unallocated empty vector of the given stride that satisfies the invariant |
| `Vectors.Reserve` | src/vector.c:114-118 | afterwards `cap >= n` and `cap` never shrinks; elements and stride are unchanged; a no-op when `n <= cap`; growth follows the doubling rule; the invariant is kept |
| `Vectors.NewWith` | src/vector.c:82-86 | empty and valid; capacity 0 (unallocated) when `n == 0`, otherwise exactly `max(n, 2)` |
| `Vectors.ShrinkToFit` | src/vector.c:121-125 | on an allocated vector `cap` becomes exactly `len`; an unallocated one is unchanged; elements are never touched |
| `Vectors.InsertN` | src/vector.c:140-148 | for `pos <= len`: prefix kept, the new elements at `pos..pos+n`, and the old tail shifted right by `n`; `len` grows by `n` and stays `<= cap`; the new capacity is exactly what reserving `len + n` gives under the growth rule; for `pos > len` nothing changes |
| `Vectors.Insert` | src/vector.c:134-137 | one element placed at `pos`, with the elements before and after it kept; stride kept, capacity never shrinks, stays `>= len` and is exactly what reserving `len + 1` gives; the invariant is kept; `pos > len` is a no-op |
| `Vectors.Push` | src/vector.c:128-131 | appends exactly one element, with `len <= cap` afterwards; the capacity is exactly what reserving `len + 1` gives, so a full allocated vector doubles; stride kept, the invariant is kept |
| `Vectors.RemoveN` | src/vector.c:170-179 | when `n >= 1` and `pos + n <= len`: hands back copies of `old[pos..pos+n]`, keeps the prefix and shifts the tail left by `n`; otherwise nothing is copied and nothing changes; capacity is unchanged |
| `Vectors.Remove` | src/vector.c:163-166 | hands back the element at `pos`; putting it back between the two remaining parts restores the original; out of range is a no-op; stride and capacity are unchanged and the invariant is kept |
| `Vectors.Pop` | src/vector.c:152-159 | on a non-empty vector, the remaining elements followed by the returned one are the original; on an empty one nothing happens |
| `Vectors.Get` | src/vector.c:182-186 | yields an element exactly when `pos < len`, and it is the element at `pos` |
| `Vectors.Set` | src/vector.c:189-193 | for `pos < len` only index `pos` changes, to the given element; every other index and the length are unchanged |
| `Vectors.Data` | src/vector.c:197-202 | storage is absent exactly when `len == 0`, and otherwise it is the element sequence |
| `Vectors.At` | src/vector.c:206-211 | a present element is the `pos`-th entry of the storage that `vec_data` exposes; absent means `pos >= len` |
| `Vectors.Len` | src/vector.c:214-217 | the number of valid elements |
| `Vectors.Capacity` | src/vector.c:220-223 | the number of allocated slots; at least the length for a valid vector; zero capacity means no storage |
| `Vectors.Swap` | src/vector.c:227-232 | the two positions exchange their elements and every other one is kept; the result is a permutation; the scratch holds the old element at `pos1` |
| `Vectors.Clear` | src/vector.c:105-111 | length and capacity zero, no storage, stride kept |
| `ByteCompare.MemCmp` | src/vector.c:36-39 | zero exactly when the first `n` bytes agree; otherwise its sign is that of the first differing unsigned byte pair |
| `VectorSort.SwapTestIsOutOfOrder` | src/vector.c:254 | `memcmp(...) * order > 0` holds exactly when the pair is out of order in the direction `order` selects |
| `VectorSort.Sort` | src/vector.c:236-261 | the result is a permutation of the input, sorted non-decreasing for `order > 0` and non-increasing for `order < 0`; with `order == 0`, or on an already sorted vector, it is unchanged; length and capacity are unchanged |
| `VectorIter.Iter` | src/vector.c:266-280 | no vector resets the cursor to 0; otherwise it yields `elems[i]` and advances while `i < len`; after that it reports exhaustion without resetting |
| `VectorIter.Drain` | src/vector.c:263-280 | calling the iterator until it stops yields `elems[i..]` in order and leaves the cursor at `len` |
| `VectorIter.ResetThenDrain` | src/vector.c:263-280 | after a reset, iteration yields every element exactly once, in order |
| `VectorIter.ExhaustedStaysExhausted` | src/vector.c:270-279 | once the cursor is at or past `len`, any number of further calls keep reporting exhaustion with the cursor unchanged |
| `VectorIter.SharedCursorSkips` | src/vector.c:268-277 | without a reset, iterating a second vector after draining a first skips the first one's length worth of elements |
| `VectorLaws.PushPopRoundTrip` | src/vector.c:128-159 | push then pop returns the pushed element and restores the original elements and length |
| `VectorLaws.InsertRemoveRoundTrip` | src/vector.c:140-179 | inserting `n` elements at `pos <= len` and removing `n` from `pos` restores the original elements and hands back exactly the inserted ones |
| `VectorLaws.PopIsRemoveLast` | src/vector.c:152-179 | popping agrees with removing the last element |
| `VectorLaws.SetThenGet` | src/vector.c:182-193 | reading after writing yields the written element at `pos` and the old value everywhere else |
| `VectorLaws.SwapTwice` | src/vector.c:227-232 | swapping the same two positions twice restores the vector |
| `VectorLaws.ReserveMonotone` | src/vector.c:114-118 | a reserve for no more than an earlier one is a no-op |
| `VectorLaws.ShrinkAfterReserve` | src/vector.c:114-125 | on a valid vector, shrinking after any reserve brings capacity back to the length, elements intact |
| `VectorLaws.ClearIsNew` | src/vector.c:73-111 | a cleared vector equals a fresh one of the same stride, and clearing is idempotent |
| `VectorLaws.WrappedGuardAgrees` | src/vector.c:170-179 | when no sum overflows, the 64-bit wrapped guard admits exactly the non-empty in-range spans plus zero-length requests at `0 < pos <= len` (at `pos == 0` the subtraction wraps and the guard rejects); a zero-length request changes nothing |
| `VectorLaws.InsertRemoveScenario` | src/vector.c:128-179 | with a 4-byte stride, pushing 1, 2, 3 and inserting 9 at 1 gives 1, 9, 2, 3; removing at 0 gives back 1 and leaves 9, 2, 3 |
| `VectorInit.InitAsWritten` | src/vector.c:89-94 | as written: the stride is `n`, the capacity comes from reserving `size`, and there are `n` zeroed elements of `n` bytes |
| `VectorInit.InitAsWrittenDefect` | src/vector.c:82-94 | `vec_init(v, 4, 3)` has stride 3; `vec_init(v, 1, 3)` has more elements than slots |
| `VectorInit.Init` | src/vector.c:89-94 | as intended: a valid vector of `n` zero-filled elements of `size` bytes, with capacity 0 for `n == 0` and `max(n, 2)` otherwise |
| `VectorInit.FromAsWritten` | src/vector.c:97-101 | as written: always the empty unallocated vector |
| `VectorInit.FromAsWrittenDefect` | src/vector.c:97-101 | building from a one-element array gives no elements |
| `VectorInit.From` | src/vector.c:97-101 | as intended: the elements are exactly the array's, valid when the array elements are one stride long; capacity 0 for an empty array and `max(n, 2)` otherwise |
| `Arenas.Init` | src/arena.c:5-7 | no blocks, invariant holds |
| `Arenas.Alloc` | src/arena.c:9-20 | exactly one block is prepended, holding `bytes` indeterminate bytes under the returned handle; the handle is fresh; earlier blocks keep order and contents |
| `Arenas.Find` | src/arena.c:28-33 | the first position holding the handle, with none before it; absent exactly when no block holds it |
| `Arenas.Resize` | src/arena.c:39 | the new payload has the new size, the first `min(old, new)` bytes are kept and the rest are indeterminate |
| `Arenas.ResizeAt` | src/arena.c:35-45 | list length, order, handles and every other block are unchanged; only the found block's payload is resized |
| `Arenas.ReallocAsWritten` | src/arena.c:22-52 | on a miss the arena is unchanged and NULL is returned; on a hit the block is resized and relinked at the same list position, and the payload of the following block is returned, or `NULL + sizeof(ArenaNode)` when it was last |
| `Arenas.Realloc` | src/arena.c:22-52 | as intended: on an empty arena or a missing handle, NULL and no change; on a hit the found block is resized in place in the list (the same list as `ResizeAt`) and its own payload is returned; the handles keep their order |
| `Arenas.Free` | src/arena.c:54-68 | the list is empty afterwards; on an empty arena nothing happens |
| `Arenas.FreeWalk` | src/arena.c:54-68 | the walk releases the blocks after the head front to back and then the head, so every block exactly once, and leaves the list empty |
| `ArenaLaws.FindsOwnBlock` | src/arena.c:28-35 | with distinct handles, looking up a block's handle finds that block |
| `ArenaLaws.ReallocOnlyResizesTarget` | src/arena.c:35-45 | after a successful realloc the target payload is the resized old payload and every other handle's payload is unchanged |
| `ArenaLaws.ReallocAsWrittenSameState` | src/arena.c:35-47 | the list after realloc as written equals the list after the intended realloc |
| `ArenaLaws.ReallocAsWrittenDefect` | src/arena.c:38-47 | after allocating A then B and storing 0..15 in A, reallocating A returns `NULL + sizeof(ArenaNode)` and reallocating B returns A; the intended version returns A, whose first 16 bytes are still 0..15 |
| `ArenaLaws.FreeIdempotent` | src/arena.c:54-68 | a second release does nothing |
| `ArenaLaws.FreeThenAllocLikeFresh` | src/arena.c:54-68 | a released arena has the payload shape of a fresh one, and allocation preserves equal shapes; in particular allocating after a release gives the same payloads as allocating on a fresh arena, and a valid arena |
| `ArenaLaws.AllocMany` | src/arena.c:9-20 | a run of allocations hands out consecutive new handles, newest block first, each with its requested size, with the old blocks at the tail |
| `ArenaLaws.AllocManyPayload` | src/arena.c:9-20 | the `i`-th handle of a run designates a payload of the `i`-th requested size |
| `ArenaLaws.AllocManyDistinct` | src/arena.c:9-20 | N allocations give N pairwise distinct handles, none of them live before, each designating a payload of its requested size |

## Findings

| source | as written | input that shows it | evidently intended | confidence | as-written member | corrected member |
|---|---|---|---|---|---|---|
| src/vector.c:91 | `vec_new_with(v, n, size)`, but the signature is `(v, size, n)`: the stride becomes `n` and `size` slots are reserved, while `n * n` bytes are zeroed and `len` becomes `n` | `vec_init(v, 1, 3)`: 2 slots of 3 bytes, 9 bytes zeroed, `len == 3 > cap == 2` | `vec_new_with(v, size, n)` | high; not executed | `VectorInit.InitAsWritten`, shown by `VectorInit.InitAsWrittenDefect` | `VectorInit.Init` |
| src/vector.c:100 | `vec_insert_n(v, arr, 0, n)`, but the signature is `(v, elems, n, pos)`: zero elements are inserted at position `n` | `vec_from(v, 1, arr, 1)` yields an empty vector | `vec_insert_n(v, arr, n, 0)` | high; not executed | `VectorInit.FromAsWritten`, shown by `VectorInit.FromAsWrittenDefect` | `VectorInit.From` |
| src/arena.c:47 | returns `next + sizeof(ArenaNode)`, where `next` is the successor saved at line 38 | allocate A then B, then reallocate A: the result is `NULL + sizeof(ArenaNode)` | return `needle + sizeof(ArenaNode)` | high; not executed | `Arenas.ReallocAsWritten`, shown by `ArenaLaws.ReallocAsWrittenDefect` | `Arenas.Realloc` |

## Left out

- Allocation failure: the results of `malloc` and `realloc` are never checked in the source, and the model assumes every allocation succeeds.
- `realloc(ptr, 0)` when an allocated empty vector is shrunk is not modelled specially. The capacity simply becomes 0.
- Memory leaks and dangling raw pointers after `vec_data`/`vec_at`: the model has no addresses.
- Alignment and the node header arithmetic of the arena: payloads are handles, not addresses.
- The stack-or-heap scratch buffer of `vec_sort`: it is an allocation detail with no effect on the result.
- Machine integers are left out: `int i, j` against `size_t len` in `vec_sort`, overflow of `n * size`, and overflow of `memcmp(...) * order`. All model integers are unbounded.
- `VectorSort.Sort`: only the sign of `memcmp` is modelled, because C leaves its magnitude unspecified. For that reason the possible `int` overflow of the product with `order` is not modelled either.
- `Vectors.InsertN`: source buffers that alias the vector's own storage are not modelled. The C code shifts the tail before it copies from `elems`, so a source pointer obtained from `vec_at` beyond the insertion point would read shifted data. Overlapping spans are undefined behaviour for `memcpy`. The same applies to `vec_set` and `vec_swap` when the source element is the vector's own, including `vec_swap` with equal positions.
- `Vectors.Swap`: requires both positions below `len`. The source does no bounds check. Positions at or past `cap`, or any position when `cap == 0`, are undefined behaviour. Positions in `[len, cap)` lie in spare slots of the buffer, which the model does not represent, so the `requires` excludes them too.
- `Arenas.Realloc`: a resized block keeps its handle. In C, `realloc` may move the node, which changes the payload address; the model tracks identity rather than address.
- `Arenas.ReallocAsWritten`: the resized block keeps its handle, so the caller can still reach it in the model. In C, when `realloc` moves the node the caller's old pointer dangles. The returned pointer is the successor's payload or `NULL + sizeof(ArenaNode)`, so the caller then holds no valid pointer to the resized block at all.
- `Arenas.Alloc`: `malloc` may hand out an address that a released block used before. Handles are never reused, so such collisions are not modelled.
- Caller writes through payload pointers are not modelled. Payload contents are arbitrary `Octet` sequences, and the preservation laws hold for all of them.
- `src/sstring.h` holds only prototypes and two trivial accessors. The string module is not part of this model.
- Thread safety is left out: the code has no concurrency.

=== FILE: arena.dfy ===
/**
 * The arena of src/arena.c: a singly linked list of allocation nodes, newest
 * first, released all at once. A node is modelled as a block carrying a handle
 * (standing for the identity of its payload pointer) and its payload bytes.
 * `next` is the first handle never issued, so handles are never reused.
 */
module Arenas {

  import opened Options

  type Handle = nat

  /** A payload byte: malloc and a growing realloc leave new bytes indeterminate. */
  datatype Octet = Indeterminate | Known(b: bv8)

  datatype Block = Block(id: Handle, data: seq<Octet>)

  datatype Arena = Arena(blocks: seq<Block>, next: Handle)

  /**
   * The pointer values arena_realloc can return: NULL, the payload of some
   * block, or `NULL + sizeof(ArenaNode)`, which points at no payload.
   */
  datatype Pointer = Null | PayloadOf(h: Handle) | NullPlusHeader

  /** Handles are below `next` and pairwise distinct. */
  predicate Valid(a: Arena)
  {
    && (forall i :: 0 <= i < |a.blocks| ==> a.blocks[i].id < a.next)
    && (forall i, j :: 0 <= i < j < |a.blocks| ==> a.blocks[i].id != a.blocks[j].id)
  }

  /** The handles of `bs`, in list order. */
  function Ids(bs: seq<Block>): (ids: seq<Handle>)
    ensures |ids| == |bs| && forall i :: 0 <= i < |bs| ==> ids[i] == bs[i].id
  {
    seq(|bs|, i requires 0 <= i < |bs| => bs[i].id)
  }

  /** arena_init: no nodes. */
  function Init(): (a: Arena)
    ensures Valid(a) && a.blocks == []
  {
    Arena([], 0)
  }

  /**
   * arena_alloc: link a new node of `bytes` payload bytes at the head of the
   * list and return its payload.
   */
  function Alloc(a: Arena, bytes: nat): (r: (Arena, Handle))
    ensures |r.0.blocks| == |a.blocks| + 1 && r.0.blocks[1..] == a.blocks
    ensures r.0.blocks[0].id == r.1 && |r.0.blocks[0].data| == bytes
    ensures forall i :: 0 <= i < bytes ==> r.0.blocks[0].data[i] == Indeterminate
    ensures Valid(a) ==> Valid(r.0) && r.1 !in Ids(a.blocks)
    ensures r.0.next > a.next
  {
    var b := Block(a.next, seq(bytes, _ => Indeterminate));
    (Arena([b] + a.blocks, a.next + 1), a.next)
  }

  /** The walk of arena_realloc: the position of the first node whose handle is `h`. */
  function Find(bs: seq<Block>, h: Handle): (k: Option<nat>)
    ensures k.Some? ==> k.value < |bs| && bs[k.value].id == h
    ensures k.Some? ==> forall j :: 0 <= j < k.value ==> bs[j].id != h
    ensures k.None? <==> h !in Ids(bs)
  {
    if |bs| == 0 then None
    else if bs[0].id == h then Some(0)
    else
      match Find(bs[1..], h)
      case None => None
      case Some(k) => Some(k + 1)
  }

  /**
   * realloc on a payload (section 7.22.3.5 of ISO C11): the new object has
   * `bytes` bytes, the first `min(old, new)` are those of the old object and
   * the rest are indeterminate.
   */
  function Resize(data: seq<Octet>, bytes: nat): (r: seq<Octet>)
    ensures |r| == bytes
    ensures forall i :: 0 <= i < bytes && i < |data| ==> r[i] == data[i]
    ensures forall i :: |data| <= i < bytes ==> r[i] == Indeterminate
  {
    if bytes <= |data| then data[..bytes]
    else data + seq(bytes - |data|, _ => Indeterminate)
  }

  /** The arena after arena_realloc resized the node at position `k` in place. */
  function ResizeAt(a: Arena, k: nat, bytes: nat): (r: Arena)
    requires k < |a.blocks|
    ensures r.next == a.next && |r.blocks| == |a.blocks|
    ensures r.blocks[k].id == a.blocks[k].id && r.blocks[k].data == Resize(a.blocks[k].data, bytes)
    ensures forall i :: 0 <= i < |a.blocks| && i != k ==> r.blocks[i] == a.blocks[i]
    ensures Ids(r.blocks) == Ids(a.blocks)
    ensures Valid(a) ==> Valid(r)
  {
    var b := a.blocks[k];
    var r := a.(blocks := a.blocks[k := Block(b.id, Resize(b.data, bytes))]);
    assert Ids(r.blocks) == Ids(a.blocks);
    r
  }

  /**
   * arena_realloc as written: on a hit it resizes the node, relinks it in
   * place, and returns the payload of the node that FOLLOWED it (`next`),
   * which is `NULL + sizeof(ArenaNode)` when the resized node was the last.
   */
  function ReallocAsWritten(a: Arena, bytes: nat, h: Handle): (r: (Arena, Pointer))
    ensures Find(a.blocks, h).None? ==> r == (a, Null)
    ensures Find(a.blocks, h).Some? ==>
              var k := Find(a.blocks, h).value;
              r.0 == ResizeAt(a, k, bytes) &&
              r.1 == if k + 1 < |a.blocks| then PayloadOf(a.blocks[k + 1].id) else NullPlusHeader
  {
    if |a.blocks| == 0 then (a, Null)
    else
      match Find(a.blocks, h)
      case None => (a, Null)
      case Some(k) =>
        var succ := if k + 1 < |a.blocks| then PayloadOf(a.blocks[k + 1].id) else NullPlusHeader;
        (ResizeAt(a, k, bytes), succ)
  }

  /** arena_realloc as intended: the same change to the list, returning the resized payload. */
  function Realloc(a: Arena, bytes: nat, h: Handle): (r: (Arena, Pointer))
    ensures a.blocks == [] ==> r == (a, Null)
    ensures h !in Ids(a.blocks) ==> r == (a, Null)
    ensures h in Ids(a.blocks) ==> r.1 == PayloadOf(h)
    ensures h in Ids(a.blocks) ==> r.0 == ResizeAt(a, Find(a.blocks, h).value, bytes)
    ensures h in Ids(a.blocks) ==> Ids(r.0.blocks) == Ids(a.blocks) && r.0.next == a.next
    ensures Valid(a) ==> Valid(r.0)
  {
    match Find(a.blocks, h)
    case None => (a, Null)
    case Some(k) => (ResizeAt(a, k, bytes), PayloadOf(h))
  }

  /** The payload a handle designates, if it is live. */
  function Payload(a: Arena, h: Handle): (p: Option<seq<Octet>>)
    ensures p.Some? <==> h in Ids(a.blocks)
  {
    match Find(a.blocks, h)
    case None => None
    case Some(k) => Some(a.blocks[k].data)
  }

  /** arena_free: every node released; the arena is empty again. */
  function Free(a: Arena): (r: Arena)
    ensures r.blocks == [] && Valid(r)
    ensures a.blocks == [] ==> r == a
    ensures Ids(r.blocks) == []
  {
    Arena([], a.next)
  }

  /**
   * The walk of arena_free, recording the order in which nodes are released:
   * every node after the head, front to back, and then the head.
   */
  method FreeWalk(a: Arena) returns (r: Arena, released: seq<Handle>)
    ensures r == Free(a)
    ensures multiset(released) == multiset(Ids(a.blocks))
    ensures a.blocks != [] ==> released[|released| - 1] == a.blocks[0].id
    ensures a.blocks != [] ==> released == Ids(a.blocks)[1..] + [a.blocks[0].id]
    ensures Valid(a) ==> forall i :: 0 <= i < |a.blocks| ==> multiset(released)[a.blocks[i].id] == 1
  {
    var ids := Ids(a.blocks);
    released := [];
    if |a.blocks| > 0 {
      var next := 1;
      while next < |a.blocks|
        invariant 1 <= next <= |a.blocks|
        invariant released == ids[1..next]
      {
        var curr := next;
        next := next + 1;
        released := released + [a.blocks[curr].id];
      }
      released := released + [a.blocks[0].id];
      assert released == ids[1..] + [ids[0]];
      assert ids == [ids[0]] + ids[1..];
      assert multiset(ids) == multiset{ids[0]} + multiset(ids[1..]);
    }
    assert multiset(released) == multiset(ids);
    r := Arena([], a.next);
    if Valid(a) {
      forall i | 0 <= i < |a.blocks|
        ensures multiset(released)[a.blocks[i].id] == 1
      {
        DistinctOnce(ids, i);
        assert ids[i] == a.blocks[i].id;
      }
    }
  }

  /** In a sequence without repetitions every entry occurs once. */
  lemma {:induction false} DistinctOnce(s: seq<Handle>, i: nat)
    requires i < |s|
    requires forall p, q :: 0 <= p < q < |s| ==> s[p] != s[q]
    ensures multiset(s)[s[i]] == 1
  {
    assert s == [s[0]] + s[1..];
    if i == 0 {
      assert s[0] !in s[1..];
    } else {
      DistinctOnce(s[1..], i - 1);
    }
  }
}

=== FILE: arena_laws.dfy ===
/** Properties relating several arena operations. */
module ArenaLaws {

  import opened Options
  import opened Arenas

  /** In an arena with distinct handles, looking up a block's handle finds that block. */
  lemma FindsOwnBlock(a: Arena, k: nat)
    requires Valid(a) && k < |a.blocks|
    ensures Find(a.blocks, a.blocks[k].id) == Some(k)
  {
  }

  /** The walk only looks at handles, so lists with the same handles give the same answer. */
  lemma {:induction false} FindDependsOnIds(bs: seq<Block>, cs: seq<Block>, h: Handle)
    requires Ids(bs) == Ids(cs)
    ensures Find(bs, h) == Find(cs, h)
  {
    if |bs| > 0 {
      assert bs[0].id == Ids(bs)[0] == Ids(cs)[0] == cs[0].id;
      assert Ids(bs[1..]) == Ids(bs)[1..] == Ids(cs)[1..] == Ids(cs[1..]);
      FindDependsOnIds(bs[1..], cs[1..], h);
    }
  }

  /**
   * A successful realloc resizes exactly the designated payload, keeping its
   * first `min(old, new)` bytes, and leaves every other payload as it was.
   */
  lemma ReallocOnlyResizesTarget(a: Arena, bytes: nat, h: Handle, g: Handle)
    requires h in Ids(a.blocks)
    ensures Payload(Realloc(a, bytes, h).0, h) == Some(Resize(Payload(a, h).value, bytes))
    ensures g != h ==> Payload(Realloc(a, bytes, h).0, g) == Payload(a, g)
  {
    var k := Find(a.blocks, h).value;
    var r := Realloc(a, bytes, h).0;
    FindDependsOnIds(r.blocks, a.blocks, h);
    FindDependsOnIds(r.blocks, a.blocks, g);
  }

  /** The list the two versions of arena_realloc leave behind is the same; only the returned pointer differs. */
  lemma ReallocAsWrittenSameState(a: Arena, bytes: nat, h: Handle)
    ensures ReallocAsWritten(a, bytes, h).0 == Realloc(a, bytes, h).0
  {
  }

  /** The sixteen bytes 0, 1, ..., 15, as a caller might store them through a payload pointer. */
  function Counting16(): (d: seq<Octet>)
    ensures |d| == 16 && forall i :: 0 <= i < 16 ==> d[i] == Known(i as bv8)
  {
    seq(16, i requires 0 <= i < 16 => Known(i as bv8))
  }

  /**
   * Allocate 16 bytes (A) then 32 bytes (B), so the list is B, A, and let the
   * caller store 0, 1, ..., 15 through A. Reallocating A as written returns
   * `NULL + sizeof(ArenaNode)` because A is last, and reallocating B returns
   * A's payload; the intended version returns the resized payload, whose first
   * 16 bytes are still 0, 1, ..., 15.
   */
  lemma ReallocAsWrittenDefect()
    ensures var (a1, pa) := Alloc(Init(), 16);
            var (a2, pb) := Alloc(a1, 32);
            var a3 := a2.(blocks := a2.blocks[1 := Block(pa, Counting16())]);
            && ReallocAsWritten(a3, 64, pa).1 == NullPlusHeader
            && ReallocAsWritten(a3, 64, pb).1 == PayloadOf(pa) != PayloadOf(pb)
            && Realloc(a3, 64, pa).1 == PayloadOf(pa)
            && Payload(Realloc(a3, 64, pa).0, pa).value[..16] == Counting16()
  {
    var (a1, pa) := Alloc(Init(), 16);
    var (a2, pb) := Alloc(a1, 32);
    var a3 := a2.(blocks := a2.blocks[1 := Block(pa, Counting16())]);
    assert Find(a3.blocks, pa) == Some(1);
    assert Find(a3.blocks, pb) == Some(0);
    ReallocOnlyResizesTarget(a3, 64, pa, pb);
    assert Payload(a3, pa).value == Counting16();
  }

  /** Releasing twice is releasing once. */
  lemma FreeIdempotent(a: Arena)
    ensures Free(Free(a)) == Free(a)
  {
  }

  /** The payloads of an arena, in list order, without their handles. */
  function Shape(a: Arena): (s: seq<seq<Octet>>)
    ensures |s| == |a.blocks| && forall i :: 0 <= i < |s| ==> s[i] == a.blocks[i].data
  {
    seq(|a.blocks|, i requires 0 <= i < |a.blocks| => a.blocks[i].data)
  }

  /**
   * After arena_free the arena is indistinguishable from a freshly initialised
   * one up to handle names, and arena_alloc keeps it so.
   */
  lemma FreeThenAllocLikeFresh(a: Arena, b: Arena, n: nat)
    requires Shape(a) == Shape(b)
    ensures Shape(Free(a)) == Shape(Init())
    ensures Shape(Alloc(a, n).0) == Shape(Alloc(b, n).0)
    ensures Shape(Alloc(Free(a), n).0) == Shape(Alloc(Init(), n).0)
    ensures Valid(Alloc(Free(a), n).0)
  {
    var s1 := Shape(Alloc(a, n).0);
    var s2 := Shape(Alloc(b, n).0);
    assert forall i :: 1 <= i < |s1| ==> s1[i] == Shape(a)[i - 1];
    assert forall i :: 1 <= i < |s2| ==> s2[i] == Shape(b)[i - 1];
  }

  /**
   * Allocate one block per entry of `sizes`, in order; returns the handles
   * obtained. Successive handles are successive numbers, and the newest block
   * heads the list.
   */
  function AllocMany(a: Arena, sizes: seq<nat>): (r: (Arena, seq<Handle>))
    ensures |r.1| == |sizes| && forall i :: 0 <= i < |sizes| ==> r.1[i] == a.next + i
    ensures r.0.next == a.next + |sizes|
    ensures |r.0.blocks| == |a.blocks| + |sizes| && r.0.blocks[|sizes|..] == a.blocks
    ensures forall j :: 0 <= j < |sizes| ==> r.0.blocks[j].id == a.next + |sizes| - 1 - j
    ensures forall j :: 0 <= j < |sizes| ==> |r.0.blocks[j].data| == sizes[|sizes| - 1 - j]
    decreases |sizes|
  {
    if |sizes| == 0 then (a, [])
    else
      var (a1, h) := Alloc(a, sizes[0]);
      var (a2, hs) := AllocMany(a1, sizes[1..]);
      assert a2.blocks[|sizes| - 1] == a1.blocks[0] by {
        assert a2.blocks[|sizes| - 1..] == a1.blocks;
      }
      (a2, [h] + hs)
  }

  /** Many allocations keep handles distinct and below `next`. */
  lemma {:induction false} AllocManyValid(a: Arena, sizes: seq<nat>)
    requires Valid(a)
    ensures Valid(AllocMany(a, sizes).0)
    decreases |sizes|
  {
    if |sizes| > 0 {
      AllocManyValid(Alloc(a, sizes[0]).0, sizes[1..]);
    }
  }

  /** The `i`-th handle of a run of allocations designates a payload of the `i`-th requested size. */
  lemma AllocManyPayload(a: Arena, sizes: seq<nat>, i: nat)
    requires Valid(a) && i < |sizes|
    ensures var (r, hs) := AllocMany(a, sizes);
            Payload(r, hs[i]).Some? && |Payload(r, hs[i]).value| == sizes[i]
  {
    var (r, hs) := AllocMany(a, sizes);
    AllocManyValid(a, sizes);
    var j := |sizes| - 1 - i;
    assert r.blocks[j].id == hs[i];
    FindsOwnBlock(r, j);
  }

  /**
   * N sequential allocations return N distinct handles, none live before,
   * each designating a payload of the requested size.
   */
  lemma AllocManyDistinct(a: Arena, sizes: seq<nat>)
    requires Valid(a)
    ensures var (r, hs) := AllocMany(a, sizes);
            && (forall i, j :: 0 <= i < j < |hs| ==> hs[i] != hs[j])
            && (forall i :: 0 <= i < |hs| ==> hs[i] !in Ids(a.blocks))
            && (forall i :: 0 <= i < |hs| ==> Payload(r, hs[i]).Some? && |Payload(r, hs[i]).value| == sizes[i])
  {
    var (r, hs) := AllocMany(a, sizes);
    forall i | 0 <= i < |hs|
      ensures hs[i] !in Ids(a.blocks)
    {
      assert forall k :: 0 <= k < |a.blocks| ==> Ids(a.blocks)[k] < a.next <= hs[i];
    }
    forall i | 0 <= i < |hs|
      ensures Payload(r, hs[i]).Some? && |Payload(r, hs[i]).value| == sizes[i]
    {
      AllocManyPayload(a, sizes, i);
    }
  }
}

=== FILE: memcmp.dfy ===
/**
 * Byte-wise comparison in the sense of `memcmp` (section 7.24.4.1 of ISO C11):
 * the first `n` bytes of two objects are compared as unsigned chars, and the sign
 * of the result is that of the difference of the first pair that differs.
 * Only the sign of the result is modelled; the magnitude is unspecified by C.
 */
module ByteCompare {

  /** `memcmp(a, b, n)` normalised to -1, 0 or 1. */
  function MemCmp(a: seq<bv8>, b: seq<bv8>, n: nat): (c: int)
    requires n <= |a| && n <= |b|
    ensures -1 <= c <= 1
    ensures c == 0 <==> a[..n] == b[..n]
    ensures c != 0 ==> exists k :: 0 <= k < n && a[..k] == b[..k] && a[k] != b[k] && (c < 0 <==> a[k] < b[k])
    decreases n
  {
    if n == 0 then 0
    else if a[0] < b[0] then
      assert a[..0] == b[..0];
      -1
    else if a[0] > b[0] then
      assert a[..0] == b[..0];
      1
    else
      var c := MemCmp(a[1..], b[1..], n - 1);
      assert a[..n] == [a[0]] + a[1..][..n - 1];
      assert b[..n] == [b[0]] + b[1..][..n - 1];
      if c != 0 then
        var k :| 0 <= k < n - 1 && a[1..][..k] == b[1..][..k] && a[1..][k] != b[1..][k] && (c < 0 <==> a[1..][k] < b[1..][k]);
        assert a[..k + 1] == [a[0]] + a[1..][..k];
        assert b[..k + 1] == [b[0]] + b[1..][..k];
        c
      else
        c
  }

  /** Swapping the operands negates the result. */
  lemma {:induction false} MemCmpAntisymmetric(a: seq<bv8>, b: seq<bv8>, n: nat)
    requires n <= |a| && n <= |b|
    ensures MemCmp(a, b, n) == -MemCmp(b, a, n)
    decreases n
  {
    if n > 0 && a[0] == b[0] {
      MemCmpAntisymmetric(a[1..], b[1..], n - 1);
    }
  }

  /** "Not greater than" is transitive. */
  lemma {:induction false} MemCmpTransitive(a: seq<bv8>, b: seq<bv8>, c: seq<bv8>, n: nat)
    requires n <= |a| && n <= |b| && n <= |c|
    requires MemCmp(a, b, n) <= 0 && MemCmp(b, c, n) <= 0
    ensures MemCmp(a, c, n) <= 0
    decreases n
  {
    if n > 0 && a[0] == b[0] && b[0] == c[0] {
      MemCmpTransitive(a[1..], b[1..], c[1..], n - 1);
    }
  }
}

=== FILE: options.dfy ===
/** The absent-or-present value the C code expresses with a NULL pointer. */
module Options {

  datatype Option<+T> = None | Some(value: T)
}

=== FILE: vector.dfy ===
/**
 * The type-erased dynamic array of src/vector.c.
 *
 * A `Vec` is an element stride (bytes per element), the sequence of valid
 * elements (each a byte string of `stride` bytes, in buffer order) and the
 * number of slots the buffer is allocated for. The raw buffer, its address and
 * the bytes past `len` are not modelled. Out-parameters the C code copies into
 * (`elem`, `elems`, `tmp`) become returned values; passing NULL for an optional
 * out-parameter corresponds to discarding that value.
 */
module Vectors {

  import opened Options

  type Elem = seq<bv8>

  datatype Vec = Vec(stride: nat, elems: seq<Elem>, cap: nat)

  /** GROWTH_FACTOR: the multiplier applied to the capacity when growing. */
  const GrowthFactor: nat := 2

  function Max(a: int, b: int): int
  {
    if a < b then b else a
  }

  /** Every element of `es` is exactly `stride` bytes long. */
  predicate AllStride(es: seq<Elem>, stride: nat)
  {
    forall i :: 0 <= i < |es| ==> |es[i]| == stride
  }

  /** The representation invariant: `len <= cap`, and every element is one stride long. */
  predicate Valid(v: Vec)
  {
    |v.elems| <= v.cap && AllStride(v.elems, v.stride)
  }

  /** vec_len: the number of valid elements. */
  function Len(v: Vec): (n: nat)
    ensures n == |v.elems|
  {
    |v.elems|
  }

  /**
   * v_resize: the capacity the buffer is reallocated to when `n` slots are
   * requested. Shrinking, and growing beyond twice the current capacity, use
   * exactly `n`; any other growth doubles; an unallocated buffer gets at least
   * GROWTH_FACTOR slots.
   */
  function Grow(cap: nat, n: nat): (c: nat)
    ensures n > cap ==> c == Max(Max(n, GrowthFactor * cap), GrowthFactor)
    ensures cap > 0 && n <= cap ==> c == n
    ensures cap == 0 ==> c == Max(n, GrowthFactor)
    ensures cap > 0 && cap < n <= GrowthFactor * cap ==> c == GrowthFactor * cap
  {
    if cap != 0 then
      if n < cap || n > cap * GrowthFactor then n
      else if n > cap then cap * GrowthFactor
      else cap
    else
      if n > GrowthFactor then n else GrowthFactor
  }

  /** vec_new: an unallocated, empty vector of the given stride. */
  function New(stride: nat): (v: Vec)
    ensures Valid(v) && v.stride == stride
    ensures Len(v) == 0 && v.cap == 0
  {
    Vec(stride, [], 0)
  }

  /** vec_reserve: make room for at least `n` elements. */
  function Reserve(v: Vec, n: nat): (r: Vec)
    ensures r.stride == v.stride && r.elems == v.elems
    ensures r.cap >= n && r.cap >= v.cap
    ensures n <= v.cap ==> r == v
    ensures n > v.cap ==> r.cap == Max(Max(n, GrowthFactor * v.cap), GrowthFactor)
    ensures Valid(v) ==> Valid(r)
  {
    if n > v.cap then v.(cap := Grow(v.cap, n)) else v
  }

  /** vec_new_with: an empty vector with room for at least `n` elements. */
  function NewWith(stride: nat, n: nat): (v: Vec)
    ensures Valid(v) && v.stride == stride && Len(v) == 0
    ensures v.cap == if n == 0 then 0 else Max(n, GrowthFactor)
  {
    Reserve(New(stride), n)
  }

  /** vec_shrink_to_fit: reallocate to exactly `len` slots when a buffer exists. */
  function ShrinkToFit(v: Vec): (r: Vec)
    ensures r.stride == v.stride && r.elems == v.elems
    ensures v.cap == 0 ==> r == v
    ensures 0 < v.cap && Len(v) <= v.cap ==> r.cap == Len(v)
    ensures Valid(v) ==> Valid(r)
  {
    if v.cap != 0 then v.(cap := Grow(v.cap, Len(v))) else v
  }

  /**
   * vec_insert_n: insert `es` before position `pos`. The tail moves right by
   * `|es|` slots; a position past the end is ignored.
   */
  function InsertN(v: Vec, es: seq<Elem>, pos: nat): (r: Vec)
    ensures r.stride == v.stride
    ensures pos > Len(v) ==> r == v
    ensures pos <= Len(v) ==> Len(r) == Len(v) + |es| <= r.cap && r.cap >= v.cap
    ensures pos <= Len(v) ==> r.cap == Reserve(v, Len(v) + |es|).cap
    ensures pos <= Len(v) ==> forall i :: 0 <= i < pos ==> r.elems[i] == v.elems[i]
    ensures pos <= Len(v) ==> forall i :: 0 <= i < |es| ==> r.elems[pos + i] == es[i]
    ensures pos <= Len(v) ==> forall i :: pos <= i < Len(v) ==> r.elems[i + |es|] == v.elems[i]
    ensures Valid(v) && AllStride(es, v.stride) ==> Valid(r)
  {
    if pos <= Len(v) then
      var w := Reserve(v, Len(v) + |es|);
      w.(elems := v.elems[..pos] + es + v.elems[pos..])
    else
      v
  }

  /** vec_insert: insert one element before `pos`. */
  function Insert(v: Vec, e: Elem, pos: nat): (r: Vec)
    ensures r.stride == v.stride && r.cap >= v.cap
    ensures pos > Len(v) ==> r == v
    ensures pos <= Len(v) ==> Len(r) <= r.cap
    ensures pos <= Len(v) ==> r.cap == Reserve(v, Len(v) + 1).cap
    ensures Valid(v) && |e| == v.stride ==> Valid(r)
    ensures pos <= Len(v) ==> Len(r) == Len(v) + 1 && r.elems[pos] == e
    ensures pos <= Len(v) ==> r.elems[..pos] == v.elems[..pos] && r.elems[pos + 1..] == v.elems[pos..]
  {
    var r := InsertN(v, [e], pos);
    assert pos <= Len(v) ==> r.elems[pos + 1..] == v.elems[pos..];
    r
  }

  /** vec_push: append one element. */
  function Push(v: Vec, e: Elem): (r: Vec)
    ensures r.elems == v.elems + [e]
    ensures r.stride == v.stride
    ensures Len(r) <= r.cap && r.cap >= v.cap
    ensures r.cap == Reserve(v, Len(v) + 1).cap
    ensures 0 < v.cap == Len(v) ==> r.cap == GrowthFactor * v.cap
    ensures Valid(v) && |e| == v.stride ==> Valid(r)
  {
    Insert(v, e, Len(v))
  }

  /**
   * The guard of vec_remove_n on unbounded naturals: at least one element, and
   * the whole span `[pos, pos + n)` inside the vector.
   */
  predicate RemovesSpan(v: Vec, pos: nat, n: nat)
  {
    n >= 1 && pos + n <= Len(v)
  }

  /**
   * vec_remove_n: remove the `n` elements from `pos`, returning copies of them.
   * An out-of-range span changes nothing and copies nothing.
   */
  function RemoveN(v: Vec, pos: nat, n: nat): (r: (Vec, Option<seq<Elem>>))
    ensures r.0.stride == v.stride && r.0.cap == v.cap
    ensures !RemovesSpan(v, pos, n) ==> r == (v, None)
    ensures RemovesSpan(v, pos, n) ==> Len(r.0) + n == Len(v)
    ensures RemovesSpan(v, pos, n) ==> forall i :: 0 <= i < pos ==> r.0.elems[i] == v.elems[i]
    ensures RemovesSpan(v, pos, n) ==> forall i :: pos + n <= i < Len(v) ==> r.0.elems[i - n] == v.elems[i]
    ensures RemovesSpan(v, pos, n) ==> r.1.Some? && |r.1.value| == n
    ensures RemovesSpan(v, pos, n) ==> forall i :: 0 <= i < n ==> r.1.value[i] == v.elems[pos + i]
    ensures Valid(v) ==> Valid(r.0)
  {
    if RemovesSpan(v, pos, n) then
      (v.(elems := v.elems[..pos] + v.elems[pos + n..]), Some(v.elems[pos..pos + n]))
    else
      (v, None)
  }

  /** vec_remove: remove the element at `pos`, returning a copy of it. */
  function Remove(v: Vec, pos: nat): (r: (Vec, Option<Elem>))
    ensures r.0.stride == v.stride && r.0.cap == v.cap
    ensures Valid(v) ==> Valid(r.0)
    ensures pos >= Len(v) ==> r == (v, None)
    ensures pos < Len(v) ==> r.1 == Some(v.elems[pos]) && Len(r.0) + 1 == Len(v)
    ensures pos < Len(v) ==> r.0.elems[..pos] + [v.elems[pos]] + r.0.elems[pos..] == v.elems
  {
    var (w, out) := RemoveN(v, pos, 1);
    if out.Some? then
      assert v.elems == w.elems[..pos] + [v.elems[pos]] + w.elems[pos..];
      (w, Some(out.value[0]))
    else
      (w, None)
  }

  /** vec_pop: remove the last element, returning a copy of it. */
  function Pop(v: Vec): (r: (Vec, Option<Elem>))
    ensures Len(v) == 0 ==> r == (v, None)
    ensures Len(v) > 0 ==> r.1.Some? && r.0.elems + [r.1.value] == v.elems
    ensures r.0.stride == v.stride && r.0.cap == v.cap
    ensures Valid(v) ==> Valid(r.0)
  {
    if Len(v) > 0 then
      (v.(elems := v.elems[..Len(v) - 1]), Some(v.elems[Len(v) - 1]))
    else
      (v, None)
  }

  /** vec_get: a copy of the element at `pos`, if there is one. */
  function Get(v: Vec, pos: nat): (r: Option<Elem>)
    ensures r.Some? <==> pos < Len(v)
    ensures r.Some? ==> r.value == v.elems[pos]
  {
    if pos < Len(v) then Some(v.elems[pos]) else None
  }

  /** vec_set: overwrite the element at `pos`; out of range is ignored. */
  function Set(v: Vec, e: Elem, pos: nat): (r: Vec)
    ensures r.stride == v.stride && r.cap == v.cap && Len(r) == Len(v)
    ensures pos < Len(v) ==> r.elems[pos] == e
    ensures forall i :: 0 <= i < Len(v) && i != pos ==> r.elems[i] == v.elems[i]
    ensures Valid(v) && |e| == v.stride ==> Valid(r)
  {
    if pos < Len(v) then v.(elems := v.elems[pos := e]) else v
  }

  /** vec_data: the element storage, absent when the vector is empty. */
  function Data(v: Vec): (r: Option<seq<Elem>>)
    ensures r.Some? <==> Len(v) > 0
    ensures r.Some? ==> r.value == v.elems
  {
    if Len(v) > 0 then Some(v.elems) else None
  }

  /** vec_at: the element at `pos` within the storage, absent when out of range. */
  function At(v: Vec, pos: nat): (r: Option<Elem>)
    ensures r.Some? ==> Data(v).Some? && pos < |Data(v).value| && r.value == Data(v).value[pos]
    ensures r.None? ==> pos >= Len(v)
  {
    if pos < Len(v) then Some(v.elems[pos]) else None
  }

  /** vec_capacity: the number of allocated slots. */
  function Capacity(v: Vec): (c: nat)
    ensures c == v.cap
    ensures Valid(v) ==> Len(v) <= c
    ensures c == 0 ==> Data(v).None? || !Valid(v)
  {
    v.cap
  }

  /**
   * vec_swap: exchange two elements through a caller-supplied scratch element;
   * the scratch ends up holding the old element at `pos1`. The C code does no
   * bounds check, so both positions must be in range.
   */
  function Swap(v: Vec, pos1: nat, pos2: nat): (r: (Vec, Elem))
    requires pos1 < Len(v) && pos2 < Len(v)
    ensures r.0.stride == v.stride && r.0.cap == v.cap && Len(r.0) == Len(v)
    ensures r.0.elems[pos1] == v.elems[pos2] && r.0.elems[pos2] == v.elems[pos1]
    ensures forall i :: 0 <= i < Len(v) && i != pos1 && i != pos2 ==> r.0.elems[i] == v.elems[i]
    ensures r.1 == v.elems[pos1]
    ensures multiset(r.0.elems) == multiset(v.elems)
    ensures Valid(v) ==> Valid(r.0)
  {
    var tmp := v.elems[pos1];
    var es := v.elems[pos1 := v.elems[pos2]];
    var es' := es[pos2 := tmp];
    (v.(elems := es'), tmp)
  }

  /** vec_clear: release the buffer; the stride is kept. */
  function Clear(v: Vec): (r: Vec)
    ensures Valid(r) && r.stride == v.stride
    ensures Len(r) == 0 && Capacity(r) == 0 && Data(r).None?
  {
    Vec(v.stride, [], 0)
  }
}

=== FILE: vector_init.dfy ===
/**
 * The two constructors of src/vector.c that build on vec_new_with and
 * vec_insert_n. Both pass their arguments in the wrong order; each is given
 * here as written and as evidently intended, with the discrepancy exhibited.
 */
module VectorInit {

  import opened Vectors

  /** `k` zero bytes. */
  function Zeros(k: nat): (z: Elem)
    ensures |z| == k && forall i :: 0 <= i < k ==> z[i] == 0
  {
    seq(k, _ => 0)
  }

  /**
   * vec_init as written: `vec_new_with(v, n, size)` against the signature
   * `(v, size, n)`, so the stride becomes `n` and `size` slots are reserved;
   * then `n * n` bytes are zeroed and the length is set to `n`.
   */
  function InitAsWritten(size: nat, n: nat): (r: Vec)
    ensures r.stride == n && Len(r) == n
    ensures r.cap == (if size == 0 then 0 else Max(size, GrowthFactor))
    ensures forall i :: 0 <= i < n ==> r.elems[i] == Zeros(n)
  {
    var w := NewWith(n, size);
    w.(elems := seq(n, _ => Zeros(n)))
  }

  /**
   * The swapped arguments give the wrong stride, and can leave more elements
   * than slots: `vec_init(v, 1, 3)` reserves 2 slots of 3 bytes yet zeroes 9
   * bytes and claims 3 elements.
   */
  lemma InitAsWrittenDefect()
    ensures InitAsWritten(4, 3).stride != 4
    ensures Len(InitAsWritten(1, 3)) > InitAsWritten(1, 3).cap
    ensures !Valid(InitAsWritten(1, 3))
  {
  }

  /** vec_init as intended: `n` zeroed elements of `size` bytes. */
  function Init(size: nat, n: nat): (r: Vec)
    ensures Valid(r) && r.stride == size && Len(r) == n
    ensures r.cap == if n == 0 then 0 else Max(n, GrowthFactor)
    ensures forall i :: 0 <= i < n ==> r.elems[i] == Zeros(size)
  {
    var w := NewWith(size, n);
    w.(elems := seq(n, _ => Zeros(size)))
  }

  /**
   * vec_from as written: `vec_insert_n(v, arr, 0, n)` against the signature
   * `(v, elems, n, pos)`, so zero elements are inserted at position `n` of an
   * empty vector.
   */
  function FromAsWritten(size: nat, arr: seq<Elem>): (r: Vec)
    ensures r == New(size)
  {
    InsertN(New(size), arr[..0], |arr|)
  }

  /** Whatever array is given, the result is empty. */
  lemma FromAsWrittenDefect()
    ensures FromAsWritten(1, [[7]]).elems != [[7]]
  {
  }

  /** vec_from as intended: a vector holding copies of the elements of `arr`, in order. */
  function From(size: nat, arr: seq<Elem>): (r: Vec)
    ensures r.elems == arr && r.stride == size
    ensures r.cap == if |arr| == 0 then 0 else Max(|arr|, GrowthFactor)
    ensures AllStride(arr, size) ==> Valid(r)
  {
    var r := InsertN(New(size), arr, 0);
    assert r.elems == arr;
    r
  }
}

=== FILE: vector_iter.dfy ===
/**
 * vec_iter with its cursor made explicit. The C function keeps one static
 * cursor shared by every vector; here the cursor is a value the caller passes
 * in and receives back, which is the same state threaded by hand.
 */
module VectorIter {

  import opened Options
  import opened Vectors

  /** One call's outcome: whether an element was produced, that element, and the cursor afterwards. */
  datatype Step = Step(more: bool, elem: Option<Elem>, cursor: nat)

  /**
   * vec_iter: with no vector, reset the cursor to 0 and report exhaustion;
   * otherwise yield the element under the cursor and advance, or report
   * exhaustion leaving the cursor where it is.
   */
  function Iter(v: Option<Vec>, cursor: nat): (s: Step)
    ensures s.more <==> v.Some? && cursor < Len(v.value)
    ensures s.more ==> s.elem == Some(v.value.elems[cursor]) && s.cursor == cursor + 1
    ensures !s.more ==> s.elem == None && s.cursor == (if v.None? then 0 else cursor)
  {
    match v
    case None => Step(false, None, 0)
    case Some(w) =>
      if cursor < Len(w) then Step(true, Get(w, cursor), cursor + 1)
      else Step(false, None, cursor)
  }

  /**
   * The documented usage: call vec_iter on `v` until it reports exhaustion,
   * collecting what it yields. Returns the elements and the final cursor.
   */
  function Drain(v: Vec, cursor: nat): (r: (seq<Elem>, nat))
    ensures cursor <= Len(v) ==> r.0 == v.elems[cursor..] && r.1 == Len(v)
    ensures cursor > Len(v) ==> r == ([], cursor)
    decreases Len(v) - cursor
  {
    var s := Iter(Some(v), cursor);
    if s.more then
      var rest := Drain(v, s.cursor);
      ([s.elem.value] + rest.0, rest.1)
    else
      ([], s.cursor)
  }

  /** After a reset, iterating yields every element once, in order, and leaves the cursor at `len`. */
  lemma ResetThenDrain(v: Vec, cursor: nat)
    ensures Iter(None, cursor).cursor == 0
    ensures Drain(v, Iter(None, cursor).cursor) == (v.elems, Len(v))
  {
  }

  /** Once exhausted, further calls keep reporting exhaustion: the cursor is not reset. */
  lemma {:induction false} ExhaustedStaysExhausted(v: Vec, cursor: nat, k: nat)
    requires cursor >= Len(v) && k >= 1
    ensures !IterN(v, cursor, k).more && IterN(v, cursor, k).cursor == cursor
  {
    if k > 1 {
      ExhaustedStaysExhausted(v, cursor, k - 1);
    }
  }

  /** The last of `k >= 1` consecutive calls on `v`, starting from `cursor`. */
  function IterN(v: Vec, cursor: nat, k: nat): Step
    requires k >= 1
    decreases k
  {
    var s := Iter(Some(v), cursor);
    if k == 1 then s else IterN(v, s.cursor, k - 1)
  }

  /**
   * The cursor is shared: iterating `w` straight after draining `v`, without a
   * reset, skips the first `Len(v)` elements of `w`.
   */
  lemma SharedCursorSkips(v: Vec, w: Vec)
    ensures Drain(w, Drain(v, 0).1).0 == if Len(v) <= Len(w) then w.elems[Len(v)..] else []
  {
  }
}

=== FILE: vector_laws.dfy ===
/** Properties relating several operations of the dynamic array. */
module VectorLaws {

  import opened Options
  import opened Vectors

  /** Pushing an element and popping it returns that element and the original contents. */
  lemma PushPopRoundTrip(v: Vec, e: Elem)
    ensures Pop(Push(v, e)).1 == Some(e)
    ensures Pop(Push(v, e)).0.elems == v.elems
    ensures Len(Pop(Push(v, e)).0) == Len(v)
  {
    var (w, out) := Pop(Push(v, e));
    assert w.elems + [out.value] == v.elems + [e];
    assert w.elems == (v.elems + [e])[..Len(v)];
  }

  /**
   * Inserting `es` at `pos` and removing `|es|` elements from `pos` restores the
   * original elements and hands back exactly `es` (nothing when `es` is empty).
   */
  lemma {:induction false} InsertRemoveRoundTrip(v: Vec, es: seq<Elem>, pos: nat)
    requires pos <= Len(v)
    ensures RemoveN(InsertN(v, es, pos), pos, |es|).0.elems == v.elems
    ensures RemoveN(InsertN(v, es, pos), pos, |es|).1 == if |es| == 0 then None else Some(es)
  {
    var w := InsertN(v, es, pos);
    var (u, out) := RemoveN(w, pos, |es|);
    if |es| > 0 {
      assert RemovesSpan(w, pos, |es|);
      assert out.value == es;
      assert u.elems == v.elems by {
        forall i | 0 <= i < Len(v)
          ensures u.elems[i] == v.elems[i]
        {
          if i >= pos {
            assert u.elems[i] == w.elems[i + |es|];
          }
        }
      }
    }
  }

  /** vec_pop behaves as vec_remove of the last element. */
  lemma PopIsRemoveLast(v: Vec)
    requires Len(v) > 0
    ensures Pop(v) == Remove(v, Len(v) - 1)
  {
    var (w, out) := Remove(v, Len(v) - 1);
    assert w.elems + [v.elems[Len(v) - 1]] == v.elems;
    assert w.elems == v.elems[..Len(v) - 1];
  }

  /** Reading back a position after writing it yields what was written; other positions are untouched. */
  lemma SetThenGet(v: Vec, e: Elem, pos: nat, q: nat)
    ensures Get(Set(v, e, pos), q) == if q == pos && pos < Len(v) then Some(e) else Get(v, q)
  {
  }

  /** Swapping the same two positions twice restores the vector. */
  lemma SwapTwice(v: Vec, pos1: nat, pos2: nat)
    requires pos1 < Len(v) && pos2 < Len(v)
    ensures Swap(Swap(v, pos1, pos2).0, pos1, pos2).0 == v
  {
    var w := Swap(Swap(v, pos1, pos2).0, pos1, pos2).0;
    assert w.elems == v.elems;
  }

  /** Reserving twice is the same as reserving once for the larger request, when the first already suffices. */
  lemma ReserveMonotone(v: Vec, n: nat, m: nat)
    requires m <= n
    ensures Reserve(Reserve(v, n), m) == Reserve(v, n)
  {
  }

  /** Shrinking after growing an allocated vector brings the capacity back to the length. */
  lemma ShrinkAfterReserve(v: Vec, n: nat)
    requires Valid(v)
    ensures ShrinkToFit(Reserve(v, n)).cap == Len(v)
    ensures ShrinkToFit(Reserve(v, n)).elems == v.elems
  {
  }

  /** Clearing forgets everything but the stride, and a cleared vector is a fresh one. */
  lemma ClearIsNew(v: Vec)
    ensures Clear(v) == New(v.stride)
    ensures Clear(Clear(v)) == Clear(v)
  {
  }

  /**
   * The guard `pos + n - 1 < len` of vec_remove_n, evaluated in 64-bit `size_t`
   * arithmetic, which wraps modulo 2^64.
   */
  predicate WrappedRemoveGuard(pos: nat, n: nat, len: nat)
  {
    (pos + n + SizeMod - 1) % SizeMod < len
  }

  const SizeMod: nat := 0x1_0000_0000_0000_0000

  /**
   * When no sum overflows, the wrapped guard admits exactly the spans
   * `RemovesSpan` admits plus zero-length requests at `0 < pos <= len`, which
   * copy zero bytes, move the tail onto itself and subtract zero: no effect.
   */
  lemma WrappedGuardAgrees(v: Vec, pos: nat, n: nat)
    requires pos + n < SizeMod && Len(v) < SizeMod
    ensures WrappedRemoveGuard(pos, n, Len(v)) <==> RemovesSpan(v, pos, n) || (n == 0 && 0 < pos <= Len(v))
    ensures n == 0 ==> RemoveN(v, pos, n) == (v, None)
  {
    if n == 0 && pos == 0 {
      assert (pos + n + SizeMod - 1) % SizeMod == SizeMod - 1;
    } else {
      assert (pos + n + SizeMod - 1) % SizeMod == pos + n - 1;
    }
  }

  /**
   * A four-byte-stride vector holding 1, 2, 3: inserting 9 at position 1 gives
   * 1, 9, 2, 3; removing position 0 then hands back 1 and leaves 9, 2, 3.
   */
  lemma InsertRemoveScenario()
    ensures var one: Elem := [1, 0, 0, 0];
            var two: Elem := [2, 0, 0, 0];
            var three: Elem := [3, 0, 0, 0];
            var nine: Elem := [9, 0, 0, 0];
            var v := Push(Push(Push(New(4), one), two), three);
            var w := InsertN(v, [nine], 1);
            var (u, out) := RemoveN(w, 0, 1);
            w.elems == [one, nine, two, three] && out == Some([one]) && u.elems == [nine, two, three] && Len(u) == 3
  {
    var one: Elem := [1, 0, 0, 0];
    var two: Elem := [2, 0, 0, 0];
    var three: Elem := [3, 0, 0, 0];
    var nine: Elem := [9, 0, 0, 0];
    var v := Push(Push(Push(New(4), one), two), three);
    assert v.elems == [one, two, three];
    var w := InsertN(v, [nine], 1);
    assert w.elems == [one, nine, two, three];
    var (u, out) := RemoveN(w, 0, 1);
    assert out == Some(w.elems[0..1]) && w.elems[0..1] == [one];
    assert u.elems == w.elems[1..] == [nine, two, three];
  }
}

=== FILE: vector_sort.dfy ===
/**
 * vec_sort: an exchange sort over the raw bytes of the elements. For every
 * pair of positions i < j it swaps the two elements when the sign of
 * `memcmp(elem_i, elem_j, stride) * order` is positive: a positive `order`
 * sorts ascending, a negative one descending, and zero leaves the vector alone.
 */
module VectorSort {

  import opened Vectors
  import opened ByteCompare

  /** `a` may precede `b` in the direction chosen by the sign of `order`. */
  predicate InOrder(order: int, a: Elem, b: Elem, stride: nat)
    requires |a| == stride && |b| == stride
  {
    if order > 0 then MemCmp(a, b, stride) <= 0
    else if order < 0 then MemCmp(a, b, stride) >= 0
    else true
  }

  /** Every earlier element may precede every later one. */
  predicate Sorted(order: int, es: seq<Elem>, stride: nat)
    requires AllStride(es, stride)
  {
    forall i, j :: 0 <= i < j < |es| ==> InOrder(order, es[i], es[j], stride)
  }

  /** The swap test of the inner loop fires exactly on a pair that is out of order. */
  lemma SwapTestIsOutOfOrder(order: int, a: Elem, b: Elem, stride: nat)
    requires |a| == stride && |b| == stride
    ensures MemCmp(a, b, stride) * order > 0 <==> !InOrder(order, a, b, stride)
  {
    var c := MemCmp(a, b, stride);
    if c == 1 {
      assert c * order == order;
    } else if c == -1 {
      assert c * order == -order;
    } else {
      assert c * order == 0;
    }
  }

  /** A pair out of order is in order the other way round. */
  lemma Flip(order: int, a: Elem, b: Elem, stride: nat)
    requires |a| == stride && |b| == stride
    requires !InOrder(order, a, b, stride)
    ensures InOrder(order, b, a, stride)
  {
    MemCmpAntisymmetric(a, b, stride);
  }

  lemma InOrderTransitive(order: int, a: Elem, b: Elem, c: Elem, stride: nat)
    requires |a| == stride && |b| == stride && |c| == stride
    requires InOrder(order, a, b, stride) && InOrder(order, b, c, stride)
    ensures InOrder(order, a, c, stride)
  {
    if order > 0 {
      MemCmpTransitive(a, b, c, stride);
    } else if order < 0 {
      MemCmpAntisymmetric(a, b, stride);
      MemCmpAntisymmetric(b, c, stride);
      MemCmpAntisymmetric(a, c, stride);
      MemCmpTransitive(c, b, a, stride);
    }
  }

  method Sort(v: Vec, order: int) returns (r: Vec)
    requires Valid(v)
    ensures Valid(r) && r.stride == v.stride && r.cap == v.cap && Len(r) == Len(v)
    ensures multiset(r.elems) == multiset(v.elems)
    ensures Sorted(order, r.elems, r.stride)
    ensures order == 0 ==> r == v
    ensures Sorted(order, v.elems, v.stride) ==> r == v
  {
    r := v;
    var n := Len(v);
    var i := 0;
    while i < n
      invariant 0 <= i <= n
      invariant Valid(r) && r.stride == v.stride && r.cap == v.cap && Len(r) == n
      invariant multiset(r.elems) == multiset(v.elems)
      invariant forall k, m :: 0 <= k < i && k < m < n ==> InOrder(order, r.elems[k], r.elems[m], r.stride)
      invariant order == 0 || Sorted(order, v.elems, v.stride) ==> r == v
    {
      var j := i + 1;
      while j < n
        invariant i + 1 <= j <= n
        invariant Valid(r) && r.stride == v.stride && r.cap == v.cap && Len(r) == n
        invariant multiset(r.elems) == multiset(v.elems)
        invariant forall k, m :: 0 <= k < i && k < m < n ==> InOrder(order, r.elems[k], r.elems[m], r.stride)
        invariant forall m :: i < m < j ==> InOrder(order, r.elems[i], r.elems[m], r.stride)
        invariant order == 0 || Sorted(order, v.elems, v.stride) ==> r == v
      {
        SwapTestIsOutOfOrder(order, r.elems[i], r.elems[j], r.stride);
        if MemCmp(r.elems[i], r.elems[j], r.stride) * order > 0 {
          var s := r;
          Flip(order, s.elems[i], s.elems[j], s.stride);
          r := Swap(s, i, j).0;
          forall k, m | 0 <= k < i && k < m < n
            ensures InOrder(order, r.elems[k], r.elems[m], r.stride)
          {
            if m == i {
              assert InOrder(order, s.elems[k], s.elems[j], s.stride);
            } else if m == j {
              assert InOrder(order, s.elems[k], s.elems[i], s.stride);
            } else {
              assert InOrder(order, s.elems[k], s.elems[m], s.stride);
            }
          }
          forall m | i < m <= j
            ensures InOrder(order, r.elems[i], r.elems[m], r.stride)
          {
            if m < j {
              InOrderTransitive(order, s.elems[j], s.elems[i], s.elems[m], s.stride);
            }
          }
        }
        j := j + 1;
      }
      i := i + 1;
    }
  }
}
